=== FILE: README.md ===
# JSON batch import: normalisation and de-duplication

The admin view lets an editor upload a JSON file and import its contents as courses, topics or
steps. Three helpers do the work: `addCourses(data)`, `addTopics(data, courseId)` and
`addSteps(data, topicId)`. Each helper runs the same pipeline before any network call:

1. It turns the parsed JSON value into a list of raw items. An array is the list. Otherwise a
   truthy `docs` field is the list. Otherwise the value alone is a one-item list.
2. It maps each raw item to the record it POSTs, filling defaults with either `||` (falsy
   values fall back) or `??` (only `null`/`undefined` fall back).
3. It makes one key unique within the call. For a topic that key is the slug: the first
   free variant `slug-1`, `slug-2`, … replaces a slug already used. For a step it is the
   title, with `title (1)`, `title (2)`, …. Courses are not de-duplicated.
4. It POSTs the records one by one in item order. The first rejected POST, and the first
   item that throws while it is normalised, ends the call.

This project models that pipeline in Dafny. The modules are:

- `Text`: JavaScript whitespace, `trim()`, `replace(/\s+/g, '-')`, per-character lower-casing,
  and the decimal rendering of integers.
- `Js`: JSON values plus `undefined`, truthiness, `||`, `??`, property reads and `String(v)`.
- `Unique`: the seen-set and counter loop that makes a key unique.
- `Batch`: item extraction, how a run ends, and the order discipline of the POSTs.
- `Topics`, `Steps`, `Courses`: one module per helper.

The server is an oracle `ok: nat -> bool`, where `ok(i)` says whether the POST for item `i` is
answered with an ok status. A run is `Done(sent)` when the helper returns. It is
`Aborted(sent, cause)` when the helper throws, for one of these causes:

- a property read on `null`/`undefined`;
- a `for … of` over a value that is not iterable;
- `toLowerCase` on a title that is not a string;
- a rejected POST.

A fifth cause, `NonStringKey`, is not a throw. It marks a run whose next item has a truthy slug or
step title that is not a string: the JavaScript helper would POST that item, but the model stops
there (see "Left out").

`sent` lists the records POSTed, in order.

The loop of each helper is modelled over the sequence of drafts, one per item (`Drafts`).
Normalising an item is pure once the clock reading for that item is fixed. So drafting every
item first and reading the drafts in order gives the same result as drafting each item when
the loop reaches it: the loop never reads a draft after the first failure.

A raw slug wins whenever it is truthy (`raw.slug || …`), not only when it is a non-empty
string. The model follows the code here: a truthy slug that is not a string is taken too, and
is reported as outside the model (see below).

## Model

| member | source | states |
|---|---|---|
| `Batch.Items` | src/components/views/addCourses.ts:3-7 | An array is the item list as it stands. Extraction throws only because `data` is `null`/`undefined` in the unguarded spelling, or because `docs` is truthy and neither an array nor a string (a number, `true` or an object). The full precedence is in `ItemsPrecedence` and `EmptyBatch`. |
| `Batch.ItemsPrecedence` | src/components/views/addTopics.ts:2 | An array is used as the item list. Otherwise a `docs` array, empty or not, is used. Otherwise a truthy `docs` is iterated by `for … of`: a string gives one item per character, and a number, `true` or an object is not iterable and throws. Otherwise a falsy `docs` wraps the value as a one-item list. |
| `Batch.GuardMattersOnlyForNullish` | src/components/views/addCourses.ts:3-7 | `data?.docs` and `data.docs` give different item lists exactly when `data` is `null`/`undefined`. The guarded form gives `[data]` and the unguarded form throws. |
| `Batch.EmptyBatch` | src/components/views/addSteps.ts:2 | The item list is empty exactly for an empty array, given directly or as `docs`. |
| `Batch.Iterate` | src/components/views/addTopics.ts:6 | `for … of` visits the elements of an array and one value per character of a string. Any other value throws "not iterable". |
| `Batch.InOrderPrepend` | src/components/views/addTopics.ts:6-43 | Sending an accepted record for item `from`, then running over the remaining items, keeps the order discipline: one POST per item, every POST but the last accepted, and the stop conditions. |
| `Js.Truthy` | src/components/views/addTopics.ts:8 | `null` and `undefined` are falsy, and every array and object is truthy. |
| `Js.Or` | src/components/views/addTopics.ts:8 | The falsy fallback yields one of its two operands, and its result is truthy exactly when either operand is. |
| `Js.Coalesce` | src/components/views/addTopics.ts:12 | `a ?? b` yields one of its two operands, and its result is nullish only when both are. |
| `Js.OrVersusCoalesce` | src/components/views/addSteps.ts:10-11 | The falsy fallback (logical or) and the nullish fallback (`a ?? b`) differ exactly when `a` is falsy but not nullish (`false`, `0`, `''`) and differs from `b`. |
| `Js.CoalesceKeepsTruthy` | src/components/views/addTopics.ts:11-12 | A truthy value is kept by both the falsy and the nullish fallback. A nullish value falls back under both. |
| `Js.Prop` | src/components/views/addTopics.ts:8-12 | A property read gives the object's field when present and `undefined` for an absent key or a non-object value. |
| `Js.ToText` | src/components/views/addCourses.ts:14-15 | `toString()` of a string is the string itself. |
| `Text.TrimSlice` | src/components/views/addCourses.ts:14 | `trim()` returns a slice of its input with only whitespace cut off on either side. |
| `Text.TrimIdempotent` | src/components/views/addCourses.ts:15 | Trimming twice is trimming once. |
| `Text.Trim` | src/components/views/addCourses.ts:14-15 | A trimmed string starts and ends with a non-space character. |
| `Text.TrimStart` | src/components/views/addCourses.ts:14 | Leading trim yields a suffix of its input, and everything cut off is whitespace. |
| `Text.TrimEnd` | src/components/views/addCourses.ts:15 | Trailing trim yields a prefix of its input, and everything cut off is whitespace. |
| `Text.Hyphenate` | src/components/views/addTopics.ts:9 | `replace(/\s+/g, '-')` leaves no whitespace. It never lengthens the string, is empty only for empty input, and changes nothing in a whitespace-free string. |
| `Text.HyphenateMatchesStream` | src/components/views/addTopics.ts:9 | The run-by-run reading of the replacement agrees with a character-at-a-time reading: whitespace emits a hyphen unless the previous character was whitespace. |
| `Text.HyphenateIdempotent` | src/components/views/addTopics.ts:9 | Replacing whitespace runs a second time changes nothing. |
| `Text.Lower` | src/components/views/addTopics.ts:9 | `toLowerCase()` keeps the length and maps each character independently. |
| `Text.IntText` | src/components/views/addCourses.ts:14 | `String(n)` of an integer: the decimal rendering for n ≥ 0, and a minus sign followed by the rendering of -n otherwise. It contains no whitespace. |
| `Text.NatText` | src/components/views/addTopics.ts:20 | The decimal rendering of a number is a non-empty string of digits. |
| `Text.ParseNatText` | src/components/views/addTopics.ts:9 | Reading back the decimal rendering of a timestamp or counter gives the number. |
| `Text.NatTextInjective` | src/components/views/addSteps.ts:20 | Different numbers render differently. |
| `Unique.Candidate` | src/components/views/addTopics.ts:20 | A variant `base-k` or `base (k)` starts with the base, is longer than it, and so never equals the base. |
| `Unique.CandidateInjective` | src/components/views/addTopics.ts:20 | Different counters give different variants (`base-j` vs `base-k`, `base (j)` vs `base (k)`). |
| `Unique.CandidatesSize` | src/components/views/addTopics.ts:18-22 | The variants numbered 1 to n are n distinct strings. |
| `Unique.CandidatesGrow` | src/components/views/addTopics.ts:20-21 | The n-th variant is new among the first n. |
| `Unique.SomeCandidateFree` | src/components/views/addTopics.ts:19-22 | The search loop ends: one of the variants numbered 1 to the size of the seen set plus one is free. |
| `Unique.FirstFree` | src/components/views/addSteps.ts:18-22 | The counter search from k returns a free variant number at most the size of the seen set plus one, with every smaller number from k taken. |
| `Unique.Uniquify` | src/components/views/addTopics.ts:16-23 | The emitted key is not yet taken. A free base is kept unchanged. Otherwise the key is the variant with the smallest k ≥ 1 that is free. |
| `Unique.FirstFreeIsUnique` | src/components/views/addSteps.ts:19-22 | Only one counter value is free with every smaller one taken. |
| `Unique.UniquifyLoop` | src/components/views/addSteps.ts:16-23 | The `while (seen.has(…))` loop, statement for statement, ends with a free key and the same minimal variant as `Uniquify`. |
| `Topics.BaseSlug` | src/components/views/addTopics.ts:9 | Slug precedence: a truthy string slug wins. Otherwise a non-empty title is lower-cased and its whitespace runs become `-`. Otherwise the slug is `topic-` plus the timestamp. A non-string title throws. The result is never empty. |
| `Topics.Draft` | src/components/views/addTopics.ts:7-13 | A `null`/`undefined` item throws. The title falls back to `Без названия` and the description to `''` when falsy. `isSingleTopicCourse` falls back to `false` only when nullish. `course` is the call's course id. The item drafts exactly when `BaseSlug` succeeds, fails with `BaseSlug`'s cause otherwise, and its slug is `BaseSlug`'s value. |
| `Topics.Drafts` | src/components/views/addTopics.ts:6-13 | One draft per item, item k at clock reading k. No draft fails with the cause reserved for rejected POSTs. |
| `Topics.SlugSet` | src/components/views/addTopics.ts:24 | Every slug sent is in the seen set. |
| `Topics.SlugSetExact` | src/components/views/addTopics.ts:24 | The seen set holds exactly the slugs emitted so far: nothing else is ever added to it. |
| `Topics.Stamp` | src/components/views/addTopics.ts:16-23 | Stamping changes only the slug, to one not yet seen and at least as long. A fresh slug is left alone. |
| `Topics.ImportFrom` | src/components/views/addTopics.ts:6-43 | The loop POSTs in item order, one POST per item. It stops after all items, right after the first rejected POST, or at an item that cannot be normalised. |
| `Topics.AddTopics` | src/components/views/addTopics.ts:1-46 | Extraction errors abort before any POST. Otherwise the run keeps the order discipline over the items, and all slugs sent in one call are pairwise distinct. |
| `Topics.SentToCourse` | src/components/views/addTopics.ts:9-10 | Every topic sent is bound to the call's course and has a non-empty slug. |
| `Topics.DefaultCourse` | src/components/views/addTopics.ts:1-10 | Without a course id, every topic sent is bound to course 2. |
| `Topics.KeptOrRenamed` | src/components/views/addTopics.ts:16-24 | The j-th topic sent is item j's draft with only the slug changed. Its slug differs from every earlier slug of the call. A base slug that no earlier topic of the call carries is kept. Otherwise the slug is `base-n` with the least n ≥ 1 whose variant no earlier topic carries. |
| `Topics.ImportFromRecords` | src/components/views/addTopics.ts:6-24 | The j-th topic sent is the draft of item j, with its slug made unique against the slugs sent before it. |
| `Topics.SentAtShift` | src/components/views/addTopics.ts:23-24 | After one topic is sent, the next one is made unique against a seen set that now holds the first topic's slug. |
| `Topics.SlugsUnique` | src/components/views/addTopics.ts:19-24 | Every slug sent is fresh against the initial seen set and against every other slug sent. |
| `Topics.ImportFromHalts` | src/components/views/addTopics.ts:6-13 | A run that stops for any reason but a rejected POST stops at the first item whose normalisation threw, with that item's error. |
| `Topics.AnswersOnlyTruncate` | src/components/views/addTopics.ts:37-42 | The server's answers change only where sending stops, never what is sent. A more accepting server's run sends an extension of the other's. |
| `Steps.Draft` | src/components/views/addSteps.ts:7-13 | A `null`/`undefined` item throws. The title falls back to `Без названия` when falsy. `duration` and `content` fall back to `null` when falsy. `order` falls back to `0` only when nullish. `topic` is the call's topic id. |
| `Steps.ZeroDurationAndOrder` | src/components/views/addSteps.ts:10-11 | An explicit `duration: 0` becomes `null`, while an explicit `order: 0` is kept. |
| `Steps.Drafts` | src/components/views/addSteps.ts:6-13 | One draft per item. No draft fails with the cause reserved for rejected POSTs. |
| `Steps.TitleSet` | src/components/views/addSteps.ts:24 | Every title sent is in the seen set. |
| `Steps.TitleSetExact` | src/components/views/addSteps.ts:24 | The seen set holds exactly the titles emitted so far: nothing else is ever added to it. |
| `Steps.Stamp` | src/components/views/addSteps.ts:16-23 | Stamping changes only the title, to one not yet seen and at least as long. A fresh title is left alone. |
| `Steps.ImportFrom` | src/components/views/addSteps.ts:6-43 | The loop POSTs in item order, one POST per item, and stops at the first rejected POST or item that cannot be normalised. |
| `Steps.AddSteps` | src/components/views/addSteps.ts:1-46 | Extraction errors abort before any POST. Otherwise the run keeps the order discipline, and all titles sent in one call are pairwise distinct. |
| `Steps.SentToTopic` | src/components/views/addSteps.ts:8-9 | Every step sent is bound to the call's topic and has a non-empty title. |
| `Steps.KeptOrRenamed` | src/components/views/addSteps.ts:16-24 | The j-th step sent is item j's draft with only the title changed. Its title differs from every earlier title of the call. A title that no earlier step of the call carries is kept. Otherwise the title is `title (n)` with the least n ≥ 1 whose variant no earlier step carries. |
| `Steps.ImportFromRecords` | src/components/views/addSteps.ts:6-24 | The j-th step sent is the draft of item j, with its title made unique against the titles sent before it. |
| `Steps.SentAtShift` | src/components/views/addSteps.ts:23-24 | After one step is sent, the next one is made unique against a seen set that now holds the first step's title. |
| `Steps.TitlesUnique` | src/components/views/addSteps.ts:19-24 | Every title sent is fresh against the initial seen set and against every other title sent. |
| `Steps.ImportFromHalts` | src/components/views/addSteps.ts:6-13 | A run that stops for any reason but a rejected POST stops at the first item whose normalisation threw, with that item's error. |
| `Steps.AnswersOnlyTruncate` | src/components/views/addSteps.ts:37-42 | A more accepting server's run sends an extension of what the other run sends. |
| `Courses.TrimmedText` | src/components/views/addCourses.ts:14-15 | `v?.toString().trim()` is absent exactly for a nullish `v`. For a string it is the trimmed string. A number gives its decimal rendering, a boolean `true`/`false` and an object `[object Object]`, all untouched by trimming. Its result has no surrounding whitespace and is fixed by trimming. |
| `Courses.Draft` | src/components/views/addCourses.ts:13-19 | Only a `null`/`undefined` item throws, with a property read on null. |
| `Courses.DraftFields` | src/components/views/addCourses.ts:14-18 | Title and slug are `TrimmedText` of the raw values: absent exactly when nullish, otherwise the trimmed `toString()` rendering. Description, `isPublished` and content fall back to `''`, `false` and `undefined` only when nullish, and are kept otherwise. |
| `Courses.ExplicitFalsyKept` | src/components/views/addCourses.ts:16-18 | An explicit `''` description and `false` are kept. A `null` content becomes `undefined`. Absent title and slug stay absent. |
| `Courses.Drafts` | src/components/views/addCourses.ts:12-19 | One draft per item. No draft fails with the cause reserved for rejected POSTs. |
| `Courses.ImportFrom` | src/components/views/addCourses.ts:12-40 | Every record sent is exactly its item's draft, in item order. The run stops at the first rejected POST or `null` item. |
| `Courses.AddCourses` | src/components/views/addCourses.ts:1-43 | Extraction errors abort before any POST. Otherwise the j-th course sent is the draft of item j. |
| `Courses.DuplicatesPassThrough` | src/components/views/addCourses.ts:12-19 | No de-duplication: equal items give equal courses. |
| `Courses.OnePayloadPerItem` | src/components/views/addCourses.ts:12-40 | With no nullish item and every POST accepted, the call sends exactly one payload per item, in order. |
| `Courses.ImportFromHalts` | src/components/views/addCourses.ts:12-19 | A run that stops for any reason but a rejected POST stops at the first `null`/`undefined` item. |
| `Courses.AnswersOnlyTruncate` | src/components/views/addCourses.ts:32-39 | A more accepting server's run sends an extension of what the other run sends. |

## Left out

- `fetch`, `res.text()`, `res.json()` and the `localStorage` token are not modelled. The server is the oracle `ok`, and the JSON responses collected into `created` are not modelled, because they come from the server.
- The error message built from `res.status` and `res.statusText` is not modelled. A rejected POST is the cause `Rejected`.
- `Date.now()` is the parameter `clock`, read once per item by position, because it is a clock.
- `toLowerCase()` is the per-character parameter `lower`, because Unicode case mapping (including mappings that change length) is outside this model.
- Batch.Iterate: a string is visited one character per code point, which matches `for … of`. The value produced for each character is stated only by count, because no helper reads anything from a string item except absent properties.
- JavaScript numbers are integers here. Fractions, exponents, `-0` and `NaN` are not modelled, because the helpers only test them for truthiness and render them with `String`.
- A truthy slug, or a truthy step title, that is not a string is not modelled. The run stops with the marker cause `NonStringKey`, because the JavaScript `Set` would compare such a key by SameValueZero (by identity for an object or array) while the template literal stringifies it, a mix of key domains this model does not carry.
- Js.ToText: its contract states only that a string renders as itself. The rendering of `null`, booleans, integers and arrays (elements joined by commas) is in its body only, because the helpers never compare those renderings with anything.
- Courses.TrimmedText: for an array its contract states only that the result is some trimmed string. The comma-joined rendering of the elements is in the body (`Js.ToText`) only, because no import format carries an array as a course title or slug.
- An object whose own `toString` key shadows the inherited method is not modelled: `String` of an object is always `[object Object]` here, because such keys are not part of the import format.
- `console.log` of each course payload is not modelled, because it is output only.
- src/components/views/Import.tsx (file reading, `JSON.parse`, React state) and the other admin views are not part of this model.
- src/collections/*.ts is not part of this model. These are schemas whose constraints, such as slug uniqueness across calls and step duration bounds, are enforced by the CMS.
- The rich-text renderer (src/app/(frontend)/utils/renderNode.tsx) and the step-reveal navigator (src/app/(frontend)/topics/[id]/StepsViewer.tsx) are outside this model: they are rendering and UI state, not the import pipeline.

=== FILE: batch.dfy ===
/** What the three import helpers share: how the parsed JSON is turned into
    a list of raw items, how a run ends, and the order in which records are
    POSTed. The server is an oracle `ok`: `ok(i)` says whether the POST made
    for item i is answered with an ok status. */
module Batch {
  import opened Js

  /** The default title of a topic or step whose raw title is falsy. */
  const Untitled: string := "Без названия"

  /** Why a run stops before the last item. */
  datatype Cause =
    | ReadOfNull    // TypeError: a property read on `null` or `undefined`
    | NotIterable   // TypeError: `for … of` over a value that is not iterable
    | NotAFunction  // TypeError: `toLowerCase` called on a title that is not a string
    | NonStringKey  // a truthy slug or step title that is not a string: outside this model
    | Rejected      // the POST was answered with a status that is not ok

  datatype Result<T> = Ok(value: T) | Err(cause: Cause) {
    predicate IsFailure() {
      Err?
    }

    function PropagateFailure<U>(): Result<U>
      requires Err?
    {
      Err(cause)
    }

    function Extract(): T
      requires Ok?
    {
      value
    }
  }

  datatype Option<T> = None | Some(value: T)

  /** The records POSTed, in order, and whether the helper returned or threw.
      On `Done` the helper returns one response per record. */
  datatype Run<R> = Done(sent: seq<R>) | Aborted(sent: seq<R>, cause: Cause)

  /** The values a `for … of` loop visits: the elements of an array, the
      characters of a string; anything else `JSON.parse` yields is not iterable. */
  function Iterate(v: Json): (r: Result<seq<Json>>)
    ensures v.Arr? ==> r == Ok(v.elems)
    ensures v.Str? ==> r.Ok? && |r.value| == |v.s|
    ensures !v.Arr? && !v.Str? ==> r == Err(NotIterable)
  {
    match v
    case Arr(xs) => Ok(xs)
    case Str(s) => Ok(seq(|s|, k requires 0 <= k < |s| => Str([s[k]])))
    case _ => Err(NotIterable)
  }

  /** `Array.isArray(data) ? data : data.docs ? data.docs : [data]`;
      `guarded` selects the `data?.docs` spelling of addCourses. */
  function Items(data: Json, guarded: bool): (r: Result<seq<Json>>)
    ensures data.Arr? ==> r == Ok(data.elems)
    ensures r.Err? ==> r.cause in {ReadOfNull, NotIterable}
    ensures r == Err(ReadOfNull) <==> Nullish(data) && !guarded
    ensures r == Err(NotIterable) <==>
      !data.Arr? && !Nullish(data) && Truthy(Prop(data, "docs")) && !Prop(data, "docs").Arr? && !Prop(data, "docs").Str?
  {
    if data.Arr? then Ok(data.elems)
    else if Nullish(data) then (if guarded then Ok([data]) else Err(ReadOfNull))
    else if Truthy(Prop(data, "docs")) then Iterate(Prop(data, "docs"))
    else Ok([data])
  }

  /** The precedence of the three shapes: an array is the list, else a
      truthy `docs` is, else the value alone is a one-item list. */
  lemma ItemsPrecedence(data: Json, guarded: bool)
    ensures data.Arr? ==> Items(data, guarded) == Ok(data.elems)
    ensures !data.Arr? && !Nullish(data) && Prop(data, "docs").Arr? ==>
      Items(data, guarded) == Ok(Prop(data, "docs").elems)
    ensures !data.Arr? && !Nullish(data) && !Truthy(Prop(data, "docs")) ==>
      Items(data, guarded) == Ok([data])
    ensures !data.Arr? && !Nullish(data) && Truthy(Prop(data, "docs")) ==>
      Items(data, guarded) == Iterate(Prop(data, "docs"))
    ensures !data.Arr? && !Nullish(data) && Truthy(Prop(data, "docs")) && Prop(data, "docs").Str? ==>
      Items(data, guarded).Ok? && |Items(data, guarded).value| == |Prop(data, "docs").s|
    ensures !data.Arr? && !Nullish(data) && Truthy(Prop(data, "docs")) && !Prop(data, "docs").Arr? && !Prop(data, "docs").Str? ==>
      Items(data, guarded) == Err(NotIterable)
  {
  }

  /** `data?.docs` and `data.docs` differ exactly when `data` is `null` or
      `undefined`: the guarded form makes it a one-item list, the other throws. */
  lemma GuardMattersOnlyForNullish(data: Json)
    ensures Items(data, true) != Items(data, false) <==> Nullish(data)
    ensures Nullish(data) ==> Items(data, true) == Ok([data]) && Items(data, false) == Err(ReadOfNull)
  {
  }

  /** The list is empty only for an empty array, given directly or as `docs`. */
  lemma EmptyBatch(data: Json, guarded: bool)
    ensures Items(data, guarded) == Ok([]) <==>
      data == Arr([]) || (!data.Arr? && !Nullish(data) && Prop(data, "docs") == Arr([]))
  {
    if !data.Arr? && !Nullish(data) && Truthy(Prop(data, "docs")) && Prop(data, "docs").Str? {
      assert |Prop(data, "docs").s| > 0;
    }
  }

  /** Normalising an item may throw, but never with the cause reserved for
      a rejected POST. */
  predicate Normalised<R>(drafts: seq<Result<R>>) {
    forall k :: 0 <= k < |drafts| && drafts[k].Err? ==> drafts[k].cause != Rejected
  }

  /** The run that first POSTs `x` and then continues as `r`. */
  function Prepend<R>(x: R, r: Run<R>): (r': Run<R>)
    ensures r'.sent == [x] + r.sent
    ensures r'.Done? == r.Done?
    ensures r.Aborted? ==> r'.cause == r.cause
  {
    match r
    case Done(s) => Done([x] + s)
    case Aborted(s, c) => Aborted([x] + s, c)
  }

  /** How a run over `count` items, the first of them item `from`, relates to
      the server's answers: one POST per item in item order; every POST but the
      last was accepted; the run ends after all items, right after the first
      rejected POST, or at an item that could not be normalised. */
  ghost predicate InOrder<R>(r: Run<R>, from: nat, count: nat, ok: nat -> bool) {
    && |r.sent| <= count
    && (forall k :: from <= k < from + |r.sent| - 1 ==> ok(k))
    && (r.Done? ==> |r.sent| == count && (r.sent != [] ==> ok(from + |r.sent| - 1)))
    && (r.Aborted? && r.cause == Rejected ==> r.sent != [] && !ok(from + |r.sent| - 1))
    && (r.Aborted? && r.cause != Rejected ==> |r.sent| < count && (r.sent != [] ==> ok(from + |r.sent| - 1)))
  }

  /** A run from item `from` that stopped for any reason but a rejected POST
      stopped at the first item whose draft failed, with that draft's cause. */
  predicate Halted<R>(drafts: seq<Result<R>>, from: nat, r: Run<R>) {
    r.Aborted? && r.cause != Rejected ==>
      from + |r.sent| < |drafts| && drafts[from + |r.sent|] == Err(r.cause)
  }

  /** Sending `x` as item `from`, accepted, and then the run `r` over the
      remaining items keeps the order discipline. */
  lemma InOrderPrepend<R>(x: R, r: Run<R>, from: nat, count: nat, ok: nat -> bool)
    requires count >= 1 && ok(from)
    requires InOrder(r, from + 1, count - 1, ok)
    ensures InOrder(Prepend(x, r), from, count, ok)
  {
  }

  /** Putting the same record in front keeps one list a prefix of another. */
  lemma PrefixCons<R>(x: R, a: seq<R>, b: seq<R>)
    requires a <= b
    ensures [x] + a <= [x] + b
  {
    assert ([x] + b)[..|a| + 1] == [x] + a;
  }
}

=== FILE: courses.dfy ===
/** `addCourses(data)`: every raw item becomes exactly one course record,
    its title and slug stringified and trimmed, with no de-duplication; the
    first failure ends the call. */
module Courses {
  import opened Js
  import opened Text
  import opened Batch

  /** The record POSTed for one item. `None` for the title or slug, and
      `Undefined` for the content, stand for a property that is left out of the
      JSON body. */
  datatype Course = Course(title: Option<string>, slug: Option<string>, description: Json, isPublished: Json, content: Json)

  /** `v?.toString().trim()` */
  function TrimmedText(v: Json): (r: Option<string>)
    ensures Nullish(v) <==> r.None?
    ensures v.Str? ==> r == Some(Trim(v.s))
    ensures v.Num? ==> r == Some(IntText(v.n))
    ensures v.Bool? ==> r == Some(if v.b then "true" else "false")
    ensures v.Obj? ==> r == Some("[object Object]")
    ensures r.Some? ==> Trim(r.value) == r.value
    ensures r.Some? && r.value != [] ==> !IsSpace(r.value[0]) && !IsSpace(r.value[|r.value| - 1])
  {
    if Nullish(v) then None
    else
      var t := Trim(ToText(v));
      TrimIdempotent(ToText(v));
      RenderingUntouched(v);
      Some(t)
  }

  /** Trimming leaves the rendering of a number, a boolean or an object alone. */
  lemma RenderingUntouched(v: Json)
    ensures v.Num? ==> Trim(ToText(v)) == IntText(v.n)
    ensures v.Bool? ==> Trim(ToText(v)) == (if v.b then "true" else "false")
    ensures v.Obj? ==> Trim(ToText(v)) == "[object Object]"
  {
    match v
    case Num(n) => TrimUntouched(IntText(n));
    case Bool(b) => TrimUntouched(if b then "true" else "false");
    case Obj(_) => TrimUntouched("[object Object]");
    case _ =>
  }

  /** The record built for `raw`: only `null` or `undefined` items throw. */
  function Draft(raw: Json): (r: Result<Course>)
    ensures Nullish(raw) <==> r.Err?
    ensures r.Err? ==> r.cause == ReadOfNull
  {
    if Nullish(raw) then Err(ReadOfNull)
    else
      Ok(Course(
           title := TrimmedText(Prop(raw, "title")),
           slug := TrimmedText(Prop(raw, "slug")),
           description := Coalesce(Prop(raw, "description"), Str("")),
           isPublished := Coalesce(Prop(raw, "isPublished"), Bool(false)),
           content := Coalesce(Prop(raw, "content"), Undefined)))
  }

  /** Field by field: title and slug are absent exactly when nullish and
      trimmed otherwise; description, isPublished and content fall back only
      when nullish, so explicit falsy values are kept. */
  lemma DraftFields(raw: Json)
    requires !Nullish(raw)
    ensures Draft(raw).Ok?
    ensures var c := Draft(raw).value;
      var title := Prop(raw, "title");
      var slug := Prop(raw, "slug");
      var description := Prop(raw, "description");
      var published := Prop(raw, "isPublished");
      var content := Prop(raw, "content");
      && (c.title.None? <==> Nullish(title))
      && (c.slug.None? <==> Nullish(slug))
      && (title.Str? ==> c.title == Some(Trim(title.s)))
      && (slug.Str? ==> c.slug == Some(Trim(slug.s)))
      && c.title == TrimmedText(title)
      && c.slug == TrimmedText(slug)
      && (Nullish(description) ==> c.description == Str(""))
      && (!Nullish(description) ==> c.description == description)
      && (Nullish(published) ==> c.isPublished == Bool(false))
      && (!Nullish(published) ==> c.isPublished == published)
      && (Nullish(content) ==> c.content == Undefined)
      && (!Nullish(content) ==> c.content == content)
  {
  }

  /** An explicit empty description and an explicit `false` are kept as they are. */
  lemma ExplicitFalsyKept(raw: Json)
    requires raw == Obj(map["description" := Str(""), "isPublished" := Bool(false), "content" := Null])
    ensures Draft(raw).Ok? && Draft(raw).value.description == Str("")
    ensures Draft(raw).value.isPublished == Bool(false)
    ensures Draft(raw).value.content == Undefined
    ensures Draft(raw).value.title == None && Draft(raw).value.slug == None
  {
    assert raw.fields.Keys == {"description", "isPublished", "content"};
    assert "title" !in raw.fields && "slug" !in raw.fields;
    DraftFields(raw);
  }

  /** The draft of every item. Normalisation is pure, so drafting all items
      up front and reading them in order is the same as drafting each one as
      the loop reaches it: the loop never looks past the first failure. */
  function Drafts(items: seq<Json>): (r: seq<Result<Course>>)
    ensures |r| == |items| && Normalised(r)
    ensures forall k :: 0 <= k < |items| ==> r[k] == Draft(items[k])
  {
    seq(|items|, k requires 0 <= k < |items| => Draft(items[k]))
  }

  /** The `for (const item of rawItems)` loop from item i on: every draft is
      POSTed as it is. */
  function ImportFrom(drafts: seq<Result<Course>>, i: nat, ok: nat -> bool): (r: Run<Course>)
    requires i <= |drafts| && Normalised(drafts)
    ensures InOrder(r, i, |drafts| - i, ok)
    ensures forall j :: 0 <= j < |r.sent| ==> i + j < |drafts| && drafts[i + j] == Ok(r.sent[j])
    decreases |drafts| - i
  {
    if i == |drafts| then Done([])
    else match drafts[i]
      case Err(c) => Aborted([], c)
      case Ok(course) =>
        if !ok(i) then Aborted([course], Rejected)
        else
          var rest := ImportFrom(drafts, i + 1, ok);
          InOrderPrepend(course, rest, i, |drafts| - i, ok);
          Prepend(course, rest)
  }

  /** `addCourses(data)` */
  function AddCourses(data: Json, ok: nat -> bool): (r: Run<Course>)
    ensures Items(data, true).Err? ==> r == Aborted([], Items(data, true).cause)
    ensures Items(data, true).Ok? ==> InOrder(r, 0, |Items(data, true).value|, ok)
    ensures Items(data, true).Ok? ==>
      forall j :: 0 <= j < |r.sent| ==> Draft(Items(data, true).value[j]) == Ok(r.sent[j])
  {
    match Items(data, true)
    case Err(c) => Aborted([], c)
    case Ok(items) => ImportFrom(Drafts(items), 0, ok)
  }

  /** No de-duplication: equal items give equal records, wherever they sit. */
  lemma DuplicatesPassThrough(items: seq<Json>, ok: nat -> bool, a: nat, b: nat)
    requires a < |ImportFrom(Drafts(items), 0, ok).sent| && b < |ImportFrom(Drafts(items), 0, ok).sent|
    requires items[a] == items[b]
    ensures ImportFrom(Drafts(items), 0, ok).sent[a] == ImportFrom(Drafts(items), 0, ok).sent[b]
  {
  }

  /** With no `null` or `undefined` item and a server that accepts every
      POST, the call sends exactly one payload per item, item by item. */
  lemma OnePayloadPerItem(items: seq<Json>, ok: nat -> bool)
    requires forall k :: 0 <= k < |items| ==> !Nullish(items[k])
    requires forall k :: 0 <= k < |items| ==> ok(k)
    ensures ImportFrom(Drafts(items), 0, ok).Done?
    ensures |ImportFrom(Drafts(items), 0, ok).sent| == |items|
    ensures forall j :: 0 <= j < |items| ==> Draft(items[j]) == Ok(ImportFrom(Drafts(items), 0, ok).sent[j])
  {
    ImportFromHalts(Drafts(items), 0, ok);
  }

  /** A run that stops for any reason but a rejected POST stops at the item
      whose normalisation threw, with that item's error. */
  lemma {:induction false} ImportFromHalts(drafts: seq<Result<Course>>, i: nat, ok: nat -> bool)
    requires i <= |drafts| && Normalised(drafts)
    ensures Halted(drafts, i, ImportFrom(drafts, i, ok))
    decreases |drafts| - i
  {
    var r := ImportFrom(drafts, i, ok);
    if i < |drafts| {
      match drafts[i]
      case Err(c) =>
        assert r == Aborted([], c);
      case Ok(d) =>
        if ok(i) {
          var rest := ImportFrom(drafts, i + 1, ok);
          assert r == Prepend(d, rest);
          ImportFromHalts(drafts, i + 1, ok);
          assert i + |r.sent| == (i + 1) + |rest.sent|;
        } else {
          assert r == Aborted([d], Rejected);
        }
    } else {
      assert r == Done([]);
    }
  }

  /** The server's answers never change what is sent, only where sending
      stops: against a server that accepts every POST another one accepts,
      the run sends an extension of what it sends against the other. */
  lemma {:induction false} AnswersOnlyTruncate(drafts: seq<Result<Course>>, i: nat, ok: nat -> bool, ok': nat -> bool)
    requires i <= |drafts| && Normalised(drafts)
    requires forall k :: ok(k) ==> ok'(k)
    ensures ImportFrom(drafts, i, ok).sent <= ImportFrom(drafts, i, ok').sent
    decreases |drafts| - i
  {
    if i < |drafts| {
      match drafts[i]
      case Err(c) =>
        assert ImportFrom(drafts, i, ok).sent == [];
      case Ok(d) =>
        var full := ImportFrom(drafts, i + 1, ok').sent;
        if ok(i) {
          var rest := ImportFrom(drafts, i + 1, ok).sent;
          assert ImportFrom(drafts, i, ok).sent == [d] + rest;
          assert ImportFrom(drafts, i, ok').sent == [d] + full;
          AnswersOnlyTruncate(drafts, i + 1, ok, ok');
          PrefixCons(d, rest, full);
        } else {
          assert ImportFrom(drafts, i, ok).sent == [d];
          assert ImportFrom(drafts, i, ok').sent[..1] == [d];
        }
    }
  }
}

=== FILE: js.dfy ===
/** The slice of JavaScript value semantics the import helpers depend on:
    the values `JSON.parse` produces (plus `undefined`, what reading an
    absent property yields), truthiness, the `||` and `??` operators,
    property reads and `String(v)`. */
module Js {
  import opened Text

  datatype Json =
    | Undefined
    | Null
    | Bool(b: bool)
    | Num(n: int)
    | Str(s: string)
    | Arr(elems: seq<Json>)
    | Obj(fields: map<string, Json>)

  /** `Boolean(v)`: false exactly for `undefined`, `null`, `false`, `0` and `''`. */
  predicate Truthy(v: Json)
    ensures Nullish(v) ==> !Truthy(v)
    ensures v.Arr? || v.Obj? ==> Truthy(v)
  {
    match v
    case Undefined => false
    case Null => false
    case Bool(b) => b
    case Num(n) => n != 0
    case Str(s) => s != ""
    case Arr(_) => true
    case Obj(_) => true
  }

  /** The values `??` and `?.` treat as missing. */
  predicate Nullish(v: Json) {
    v.Undefined? || v.Null?
  }

  /** `a || b` */
  function Or(a: Json, b: Json): (r: Json)
    ensures r == a || r == b
    ensures Truthy(r) <==> Truthy(a) || Truthy(b)
  {
    if Truthy(a) then a else b
  }

  /** `a ?? b` */
  function Coalesce(a: Json, b: Json): (r: Json)
    ensures r == a || r == b
    ensures Nullish(r) <==> Nullish(a) && Nullish(b)
  {
    if Nullish(a) then b else a
  }

  /** Every nullish value is falsy, so `??` keeps whatever `||` keeps. */
  lemma CoalesceKeepsTruthy(a: Json, b: Json)
    ensures Truthy(a) ==> Or(a, b) == a && Coalesce(a, b) == a
    ensures Nullish(a) ==> Or(a, b) == b && Coalesce(a, b) == b
  {
  }

  /** `||` and `??` give different answers exactly on the falsy values that
      are not nullish (`false`, `0`, `''`), when the fallback differs from them. */
  lemma OrVersusCoalesce(a: Json, b: Json)
    ensures Or(a, b) != Coalesce(a, b) <==> !Truthy(a) && !Nullish(a) && a != b
  {
  }

  /** `v.key` on a value that is neither `null` nor `undefined`. Booleans,
      numbers, strings and arrays carry none of the keys the import helpers
      read (`docs`, `title`, `slug`, `description`, `duration`, `order`,
      `content`, `isPublished`, `isSingleTopicCourse`), so reading them yields
      `undefined`, and so does an absent key of an object. */
  function Prop(v: Json, key: string): (r: Json)
    requires !Nullish(v)
    ensures v.Obj? && key in v.fields ==> r == v.fields[key]
    ensures !(v.Obj? && key in v.fields) ==> r == Undefined
  {
    if v.Obj? && key in v.fields then v.fields[key] else Undefined
  }

  /** `String(v)`, which is also what `v.toString()` returns for every
      non-nullish value `JSON.parse` produces. */
  function ToText(v: Json): (r: string)
    ensures v.Str? ==> r == v.s
    decreases v, 1
  {
    match v
    case Undefined => "undefined"
    case Null => "null"
    case Bool(b) => if b then "true" else "false"
    case Num(n) => IntText(n)
    case Str(s) => s
    case Arr(_) => JoinFrom(v, 0)
    case Obj(_) => "[object Object]"
  }

  /** `Array.prototype.join(',')` over the elements of `v` from index `i` on;
      `null` and `undefined` elements contribute the empty string. */
  function JoinFrom(v: Json, i: nat): string
    requires v.Arr? && i <= |v.elems|
    decreases v, 0, |v.elems| - i
  {
    if i == |v.elems| then ""
    else
      var e := v.elems[i];
      (if i == 0 then "" else ",") + (if Nullish(e) then "" else ToText(e)) + JoinFrom(v, i + 1)
  }
}

=== FILE: steps.dfy ===
/** `addSteps(data, topicId)`: every raw item becomes a step record bound to
    one topic; its title is made unique within the call before the record is
    POSTed; the first failure ends the call. */
module Steps {
  import opened Js
  import opened Unique
  import opened Batch

  /** The record POSTed for one item. */
  datatype Step = Step(title: string, topic: int, duration: Json, order: Json, content: Json)

  /** The record built for `raw`, before its title is made unique. */
  function Draft(raw: Json, topicId: int): (r: Result<Step>)
    ensures Nullish(raw) <==> r == Err(ReadOfNull)
    ensures r.Err? ==> r.cause in {ReadOfNull, NonStringKey}
    ensures r.Ok? ==> r.value.topic == topicId && r.value.title != ""
    ensures r.Ok? ==> (r.value.duration == Null || Truthy(r.value.duration))
    ensures r.Ok? ==> !Nullish(r.value.order)
    ensures r.Ok? ==> (r.value.content == Null || Truthy(r.value.content))
    ensures !Nullish(raw) ==>
      var title := Prop(raw, "title");
      var duration := Prop(raw, "duration");
      var order := Prop(raw, "order");
      var content := Prop(raw, "content");
      && (Truthy(title) && !title.Str? <==> r == Err(NonStringKey))
      && (r.Ok? ==>
        && (Truthy(title) ==> r.value.title == title.s)
        && (!Truthy(title) ==> r.value.title == Untitled)
        && (Truthy(duration) ==> r.value.duration == duration)
        && (!Truthy(duration) ==> r.value.duration == Null)
        && (Nullish(order) ==> r.value.order == Num(0))
        && (!Nullish(order) ==> r.value.order == order)
        && (Truthy(content) ==> r.value.content == content)
        && (!Truthy(content) ==> r.value.content == Null))
  {
    if Nullish(raw) then Err(ReadOfNull)
    else
      var title := Or(Prop(raw, "title"), Str(Untitled));
      if !title.Str? then Err(NonStringKey)
      else
        Ok(Step(
             title := title.s,
             topic := topicId,
             duration := Or(Prop(raw, "duration"), Null),
             order := Coalesce(Prop(raw, "order"), Num(0)),
             content := Or(Prop(raw, "content"), Null)))
  }

  /** The two numeric defaults part ways on an explicit 0: `duration || null`
      turns it into null, `order ?? 0` keeps it. */
  lemma ZeroDurationAndOrder(raw: Json, topicId: int)
    requires raw == Obj(map["duration" := Num(0), "order" := Num(0)])
    ensures Draft(raw, topicId).Ok?
    ensures Draft(raw, topicId).value.duration == Null
    ensures Draft(raw, topicId).value.order == Num(0)
    ensures Draft(raw, topicId).value.title == Untitled
  {
  }

  /** The draft of every item. Normalisation is pure, so drafting all items
      up front and reading them in order is the same as drafting each one as
      the loop reaches it: the loop never looks past the first failure. */
  function Drafts(items: seq<Json>, topicId: int): (r: seq<Result<Step>>)
    ensures |r| == |items| && Normalised(r)
    ensures forall k :: 0 <= k < |items| ==> r[k] == Draft(items[k], topicId)
  {
    var r := seq(|items|, k requires 0 <= k < |items| => Draft(items[k], topicId));
    assert forall k :: 0 <= k < |r| && r[k].Err? ==> r[k].cause != Rejected by {
      forall k | 0 <= k < |r| && r[k].Err?
        ensures r[k].cause != Rejected
      {
        assert r[k] == Draft(items[k], topicId);
      }
    }
    r
  }

  /** The titles of `steps`. */
  function TitleSet(steps: seq<Step>): (r: set<string>)
    ensures forall j :: 0 <= j < |steps| ==> steps[j].title in r
  {
    if steps == [] then {} else {steps[0].title} + TitleSet(steps[1..])
  }

  /** The set holds the titles of `steps` and nothing else. */
  lemma {:induction false} TitleSetExact(steps: seq<Step>)
    ensures forall x :: x in TitleSet(steps) <==> exists j :: 0 <= j < |steps| && steps[j].title == x
  {
    if steps != [] {
      TitleSetExact(steps[1..]);
      forall x | x in TitleSet(steps)
        ensures exists j :: 0 <= j < |steps| && steps[j].title == x
      {
        if x != steps[0].title {
          assert x in TitleSet(steps[1..]);
          var j :| 0 <= j < |steps[1..]| && steps[1..][j].title == x;
          assert steps[j + 1].title == x;
        }
      }
    }
  }

  /** A drafted step with its title made unique against the titles in `seen`. */
  function Stamp(d: Step, seen: set<string>): (t: Step)
    ensures t.title !in seen
    ensures t == d.(title := t.title)
    ensures |t.title| >= |d.title|
    ensures d.title !in seen ==> t == d
  {
    d.(title := Uniquify(Parenthesised, seen, d.title))
  }

  /** The `for (let raw of items)` loop from item i on, when the titles in
      `seen` have already been emitted. */
  function ImportFrom(drafts: seq<Result<Step>>, i: nat, seen: set<string>, ok: nat -> bool): (r: Run<Step>)
    requires i <= |drafts| && Normalised(drafts)
    ensures InOrder(r, i, |drafts| - i, ok)
    decreases |drafts| - i
  {
    if i == |drafts| then Done([])
    else match drafts[i]
      case Err(c) => Aborted([], c)
      case Ok(d) =>
        var step := Stamp(d, seen);
        if !ok(i) then Aborted([step], Rejected)
        else
          var rest := ImportFrom(drafts, i + 1, seen + {step.title}, ok);
          InOrderPrepend(step, rest, i, |drafts| - i, ok);
          Prepend(step, rest)
  }

  /** `addSteps(data, topicId)` */
  function AddSteps(data: Json, topicId: int, ok: nat -> bool): (r: Run<Step>)
    ensures Items(data, false).Err? ==> r == Aborted([], Items(data, false).cause)
    ensures Items(data, false).Ok? ==> InOrder(r, 0, |Items(data, false).value|, ok)
    ensures forall j, k :: 0 <= j < k < |r.sent| ==> r.sent[j].title != r.sent[k].title
  {
    match Items(data, false)
    case Err(c) => Aborted([], c)
    case Ok(items) =>
      TitlesUnique(Drafts(items, topicId), 0, {}, ok);
      ImportFrom(Drafts(items, topicId), 0, {}, ok)
  }

  /** Every step sent is bound to the call's topic and has a non-empty title. */
  lemma SentToTopic(data: Json, topicId: int, ok: nat -> bool)
    ensures forall j :: 0 <= j < |AddSteps(data, topicId, ok).sent| ==>
      AddSteps(data, topicId, ok).sent[j].topic == topicId && AddSteps(data, topicId, ok).sent[j].title != ""
  {
    if Items(data, false).Ok? {
      var items := Items(data, false).value;
      var drafts := Drafts(items, topicId);
      var sent := ImportFrom(drafts, 0, {}, ok).sent;
      assert AddSteps(data, topicId, ok).sent == sent;
      ImportFromRecords(drafts, 0, {}, ok);
      forall j | 0 <= j < |sent|
        ensures sent[j].topic == topicId && sent[j].title != ""
      {
        assert SentAt(drafts, 0, {}, sent, j);
        assert drafts[j] == Draft(items[j], topicId);
      }
    }
  }

  /** The title of the j-th record sent: the draft's own title when no earlier
      record of this call carries it, otherwise the variant with the least
      counter n >= 1 that no earlier record of this call carries. */
  lemma {:induction false} KeptOrRenamed(data: Json, topicId: int, ok: nat -> bool, j: nat)
    requires j < |AddSteps(data, topicId, ok).sent|
    ensures Items(data, false).Ok? && j < |Items(data, false).value|
    ensures var sent := AddSteps(data, topicId, ok).sent;
      var d := Drafts(Items(data, false).value, topicId)[j];
      && d == Draft(Items(data, false).value[j], topicId)
      && d.Ok?
      && sent[j] == d.value.(title := sent[j].title)
      && (forall k :: 0 <= k < j ==> sent[k].title != sent[j].title)
      && ((forall k :: 0 <= k < j ==> sent[k].title != d.value.title) ==> sent[j] == d.value)
      && ((exists k :: 0 <= k < j && sent[k].title == d.value.title) ==>
        exists n :: 1 <= n && sent[j].title == Candidate(Parenthesised, d.value.title, n)
          && forall m :: 1 <= m < n ==> exists k :: 0 <= k < j && sent[k].title == Candidate(Parenthesised, d.value.title, m))
  {
    var items := Items(data, false).value;
    var drafts := Drafts(items, topicId);
    var sent := ImportFrom(drafts, 0, {}, ok).sent;
    assert AddSteps(data, topicId, ok).sent == sent;
    ImportFromRecords(drafts, 0, {}, ok);
    assert SentAt(drafts, 0, {}, sent, j);
    var d := drafts[j].value;
    var earlier := TitleSet(sent[..j]);
    assert {} + earlier == earlier;
    assert sent[j].title == Uniquify(Parenthesised, earlier, d.title);
    TitleSetExact(sent[..j]);
    assert forall k :: 0 <= k < j ==> sent[..j][k] == sent[k];
    forall x
      ensures x in earlier <==> exists k :: 0 <= k < j && sent[k].title == x
    {
      if x in earlier {
        var k :| 0 <= k < j && sent[..j][k].title == x;
        assert sent[k].title == x;
      }
    }
  }

  /** The j-th record sent is item from + j's draft, stamped against `seen`
      and the titles sent before it. */
  ghost predicate SentAt(drafts: seq<Result<Step>>, from: nat, seen: set<string>, sent: seq<Step>, j: nat)
    requires j < |sent|
  {
    && from + j < |drafts|
    && drafts[from + j].Ok?
    && sent[j] == Stamp(drafts[from + j].value, seen + TitleSet(sent[..j]))
  }

  /** What the loop sends, record by record: the j-th record is the draft of
      item i + j with its title made unique against `seen` and the titles sent
      before it. */
  lemma {:induction false} ImportFromRecords(drafts: seq<Result<Step>>, i: nat, seen: set<string>, ok: nat -> bool)
    requires i <= |drafts| && Normalised(drafts)
    ensures forall j :: 0 <= j < |ImportFrom(drafts, i, seen, ok).sent| ==>
      SentAt(drafts, i, seen, ImportFrom(drafts, i, seen, ok).sent, j)
    decreases |drafts| - i
  {
    if i < |drafts| && drafts[i].Ok? {
      var t := Stamp(drafts[i].value, seen);
      var r := ImportFrom(drafts, i, seen, ok);
      assert SentAt(drafts, i, seen, [t], 0) by {
        assert [t][..0] == [];
      }
      if ok(i) {
        var rest := ImportFrom(drafts, i + 1, seen + {t.title}, ok);
        assert r.sent == [t] + rest.sent;
        ImportFromRecords(drafts, i + 1, seen + {t.title}, ok);
        forall j | 0 <= j < |r.sent|
          ensures SentAt(drafts, i, seen, r.sent, j)
        {
          SentAtShift(drafts, i, seen, t, rest.sent, j);
        }
      }
    }
  }

  /** One step of the induction above: the first record sent is item i's,
      and a record sent after it keeps its characterisation once it is put in
      front. */
  lemma SentAtShift(drafts: seq<Result<Step>>, i: nat, seen: set<string>, step: Step, rest: seq<Step>, j: nat)
    requires j <= |rest|
    requires SentAt(drafts, i, seen, [step], 0)
    requires 1 <= j ==> SentAt(drafts, i + 1, seen + {step.title}, rest, j - 1)
    ensures SentAt(drafts, i, seen, [step] + rest, j)
  {
    var sent := [step] + rest;
    if j == 0 {
      assert sent[..0] == [step][..0];
    } else {
      var k := j - 1;
      assert sent[j] == rest[k];
      assert sent[..j] == [step] + rest[..k];
      assert ([step] + rest[..k])[1..] == rest[..k];
      assert seen + TitleSet(sent[..j]) == seen + {step.title} + TitleSet(rest[..k]);
      assert (i + 1) + k == i + j;
    }
  }

  /** Every title sent is fresh against `seen` and against every other title
      sent. */
  lemma TitlesUnique(drafts: seq<Result<Step>>, i: nat, seen: set<string>, ok: nat -> bool)
    requires i <= |drafts| && Normalised(drafts)
    ensures forall j :: 0 <= j < |ImportFrom(drafts, i, seen, ok).sent| ==>
      ImportFrom(drafts, i, seen, ok).sent[j].title !in seen
    ensures forall j, k :: 0 <= j < k < |ImportFrom(drafts, i, seen, ok).sent| ==>
      ImportFrom(drafts, i, seen, ok).sent[j].title != ImportFrom(drafts, i, seen, ok).sent[k].title
  {
    var sent := ImportFrom(drafts, i, seen, ok).sent;
    ImportFromRecords(drafts, i, seen, ok);
    forall j | 0 <= j < |sent|
      ensures sent[j].title !in seen
    {
      assert SentAt(drafts, i, seen, sent, j);
    }
    forall j, k | 0 <= j < k < |sent|
      ensures sent[j].title != sent[k].title
    {
      assert SentAt(drafts, i, seen, sent, k);
      assert sent[..k][j] == sent[j];
    }
  }

  /** A run that stops for any reason but a rejected POST stops at the item
      whose normalisation threw, with that item's error. */
  lemma {:induction false} ImportFromHalts(drafts: seq<Result<Step>>, i: nat, seen: set<string>, ok: nat -> bool)
    requires i <= |drafts| && Normalised(drafts)
    ensures Halted(drafts, i, ImportFrom(drafts, i, seen, ok))
    decreases |drafts| - i
  {
    var r := ImportFrom(drafts, i, seen, ok);
    if i < |drafts| {
      match drafts[i]
      case Err(c) =>
        assert r == Aborted([], c);
      case Ok(d) =>
        var t := Stamp(d, seen);
        if ok(i) {
          var rest := ImportFrom(drafts, i + 1, seen + {t.title}, ok);
          assert r == Prepend(t, rest);
          ImportFromHalts(drafts, i + 1, seen + {t.title}, ok);
          assert i + |r.sent| == (i + 1) + |rest.sent|;
        } else {
          assert r == Aborted([t], Rejected);
        }
    } else {
      assert r == Done([]);
    }
  }

  /** The server's answers never change what is sent, only where sending
      stops: against a server that accepts every POST another one accepts,
      the run sends an extension of what it sends against the other. */
  lemma {:induction false} AnswersOnlyTruncate(drafts: seq<Result<Step>>, i: nat, seen: set<string>, ok: nat -> bool, ok': nat -> bool)
    requires i <= |drafts| && Normalised(drafts)
    requires forall k :: ok(k) ==> ok'(k)
    ensures ImportFrom(drafts, i, seen, ok).sent <= ImportFrom(drafts, i, seen, ok').sent
    decreases |drafts| - i
  {
    if i < |drafts| {
      match drafts[i]
      case Err(c) =>
        assert ImportFrom(drafts, i, seen, ok).sent == [];
      case Ok(d) =>
        var t := Stamp(d, seen);
        var seen' := seen + {t.title};
        var full := ImportFrom(drafts, i + 1, seen', ok').sent;
        if ok(i) {
          var rest := ImportFrom(drafts, i + 1, seen', ok).sent;
          assert ImportFrom(drafts, i, seen, ok).sent == [t] + rest;
          assert ImportFrom(drafts, i, seen, ok').sent == [t] + full;
          AnswersOnlyTruncate(drafts, i + 1, seen', ok, ok');
          PrefixCons(t, rest, full);
        } else {
          assert ImportFrom(drafts, i, seen, ok).sent == [t];
          assert ImportFrom(drafts, i, seen, ok').sent[..1] == [t];
        }
    }
  }
}

=== FILE: text.dfy ===
/** Character- and string-level operations the import helpers rely on:
    JavaScript whitespace, `trim()`, `replace(/\s+/g, '-')`, per-character
    lower-casing, and the decimal rendering of integers that template
    literals and string concatenation perform. */
module Text {

  /** The characters that `\s` matches and `trim()` removes: ECMAScript
      WhiteSpace and LineTerminator, the Unicode space separators (Zs)
      written out. */
  predicate IsSpace(c: char) {
    var n := c as int;
    || 0x09 <= n <= 0x0D
    || n == 0x20 || n == 0xA0 || n == 0x1680
    || 0x2000 <= n <= 0x200A
    || n == 0x2028 || n == 0x2029 || n == 0x202F || n == 0x205F
    || n == 0x3000 || n == 0xFEFF
  }

  predicate SpaceFree(s: string) {
    forall k :: 0 <= k < |s| ==> !IsSpace(s[k])
  }

  /** `s` without its leading whitespace: a suffix of `s`, and everything cut off is whitespace. */
  function TrimStart(s: string): (r: string)
    ensures |r| <= |s| && r == s[|s| - |r|..]
    ensures forall k :: 0 <= k < |s| - |r| ==> IsSpace(s[k])
    ensures r == [] || !IsSpace(r[0])
    ensures s != [] && IsSpace(s[0]) ==> |r| < |s|
  {
    if s != [] && IsSpace(s[0]) then TrimStart(s[1..]) else s
  }

  /** `s` without its trailing whitespace: a prefix of `s`, and everything cut off is whitespace. */
  function TrimEnd(s: string): (r: string)
    ensures |r| <= |s| && r == s[..|r|]
    ensures forall k :: |r| <= k < |s| ==> IsSpace(s[k])
    ensures r == [] || !IsSpace(r[|r| - 1])
  {
    if s != [] && IsSpace(s[|s| - 1]) then TrimEnd(s[..|s| - 1]) else s
  }

  /** `s.trim()` */
  function Trim(s: string): (r: string)
    ensures r == [] || (!IsSpace(r[0]) && !IsSpace(r[|r| - 1]))
  {
    TrimEnd(TrimStart(s))
  }

  /** The trimmed string is the slice `s[a..b]`, and only whitespace lies outside it. */
  lemma TrimSlice(s: string) returns (a: nat, b: nat)
    ensures a <= b <= |s| && Trim(s) == s[a..b]
    ensures forall k :: 0 <= k < a ==> IsSpace(s[k])
    ensures forall k :: b <= k < |s| ==> IsSpace(s[k])
  {
    var t := TrimStart(s);
    var r := TrimEnd(t);
    a := |s| - |t|;
    b := a + |r|;
    assert r == t[..|r|];
    forall k | b <= k < |s|
      ensures IsSpace(s[k])
    {
      assert s[k] == t[k - a];
    }
  }

  /** Trimming twice is trimming once. */
  lemma TrimIdempotent(s: string)
    ensures Trim(Trim(s)) == Trim(s)
  {
    var t := Trim(s);
    assert TrimStart(t) == t;
    assert TrimEnd(t) == t;
  }

  /** A string that neither starts nor ends with whitespace is its own trim. */
  lemma TrimUntouched(s: string)
    requires s == [] || (!IsSpace(s[0]) && !IsSpace(s[|s| - 1]))
    ensures Trim(s) == s
  {
  }

  /** `s.replace(/\s+/g, '-')`: every maximal run of whitespace becomes one hyphen. */
  function Hyphenate(s: string): (r: string)
    ensures SpaceFree(r)
    ensures |r| <= |s|
    ensures r == [] <==> s == []
    ensures SpaceFree(s) ==> r == s
    decreases |s|
  {
    if s == [] then []
    else if IsSpace(s[0]) then
      "-" + Hyphenate(TrimStart(s))
    else [s[0]] + Hyphenate(s[1..])
  }

  /** A character-at-a-time reading of the same replacement: a whitespace
      character emits a hyphen unless the previous character was whitespace too. */
  function HyphenateStream(s: string, inRun: bool): string
    decreases |s|
  {
    if s == [] then []
    else if IsSpace(s[0]) then (if inRun then "" else "-") + HyphenateStream(s[1..], true)
    else [s[0]] + HyphenateStream(s[1..], false)
  }

  lemma {:induction false} StreamSkipsRun(s: string)
    ensures HyphenateStream(s, true) == HyphenateStream(TrimStart(s), true)
    decreases |s|
  {
    if s != [] && IsSpace(s[0]) {
      StreamSkipsRun(s[1..]);
    }
  }

  /** The run-based and the streaming readings of `replace(/\s+/g, '-')` agree. */
  lemma {:induction false} HyphenateMatchesStream(s: string)
    ensures Hyphenate(s) == HyphenateStream(s, false)
    decreases |s|
  {
    if s == [] {
    } else if IsSpace(s[0]) {
      var rest := TrimStart(s);
      StreamSkipsRun(s[1..]);
      assert TrimStart(s[1..]) == rest;
      HyphenateMatchesStream(rest);
      if rest != [] {
        assert HyphenateStream(rest, true) == HyphenateStream(rest, false);
      }
    } else {
      HyphenateMatchesStream(s[1..]);
    }
  }

  /** Replacing whitespace runs twice changes nothing more. */
  lemma HyphenateIdempotent(s: string)
    ensures Hyphenate(Hyphenate(s)) == Hyphenate(s)
  {
  }

  /** `s.toLowerCase()`, for a per-character case mapping `lower`. */
  function Lower(lower: char -> char, s: string): (r: string)
    ensures |r| == |s|
    ensures forall k :: 0 <= k < |s| ==> r[k] == lower(s[k])
  {
    seq(|s|, k requires 0 <= k < |s| => lower(s[k]))
  }

  predicate IsDigit(c: char) {
    '0' <= c <= '9'
  }

  function Digit(d: nat): (c: char)
    requires d < 10
    ensures IsDigit(c)
  {
    (48 + d) as char
  }

  function DigitValue(c: char): (d: nat)
    requires IsDigit(c)
    ensures d < 10
  {
    c as int - 48
  }

  /** Decimal rendering of a natural number, as `${n}` produces it. */
  function NatText(n: nat): (r: string)
    ensures |r| >= 1
    ensures forall k :: 0 <= k < |r| ==> IsDigit(r[k])
    decreases n
  {
    if n < 10 then [Digit(n)] else NatText(n / 10) + [Digit(n % 10)]
  }

  /** Reading a string of decimal digits back as a number. */
  function ParseNat(s: string): nat
    requires forall k :: 0 <= k < |s| ==> IsDigit(s[k])
  {
    if s == [] then 0 else 10 * ParseNat(s[..|s| - 1]) + DigitValue(s[|s| - 1])
  }

  lemma {:induction false} ParseNatText(n: nat)
    ensures ParseNat(NatText(n)) == n
    decreases n
  {
    var r := NatText(n);
    if n >= 10 {
      ParseNatText(n / 10);
      assert r[..|r| - 1] == NatText(n / 10);
    }
  }

  /** Distinct numbers have distinct decimal renderings. */
  lemma NatTextInjective(a: nat, b: nat)
    requires NatText(a) == NatText(b)
    ensures a == b
  {
    ParseNatText(a);
    ParseNatText(b);
  }

  /** Decimal rendering of an integer, with a leading minus sign when negative. */
  function IntText(n: int): (r: string)
    ensures |r| >= 1 && SpaceFree(r)
    ensures r[0] == '-' <==> n < 0
    ensures n >= 0 ==> r == NatText(n)
    ensures n < 0 ==> r[1..] == NatText(-n)
  {
    if n < 0 then "-" + NatText(-n) else NatText(n)
  }
}

=== FILE: topics.dfy ===
/** `addTopics(data, courseId)`: every raw item becomes a topic record bound
    to one course; its slug is made unique within the call before the record
    is POSTed; the first failure ends the call. */
module Topics {
  import opened Js
  import opened Text
  import opened Unique
  import opened Batch

  /** The record POSTed for one item. */
  datatype Topic = Topic(title: Json, slug: string, course: int, description: Json, isSingleTopicCourse: Json)

  /** What the call depends on besides its items: the course id (2 unless
      given), the clock `Date.now()` reads while item i is normalised, and
      the per-character case mapping of `toLowerCase`. */
  datatype Env = Env(courseId: int, clock: nat -> nat, lower: char -> char)

  const DefaultCourseId: int := 2

  /** The slug used when neither the raw slug nor the title gives one. */
  function TimestampSlug(now: nat): string {
    "topic-" + NatText(now)
  }

  /** `raw.slug || raw.title?.toLowerCase().replace(/\s+/g, '-') || 'topic-' + Date.now()` */
  function BaseSlug(slug: Json, title: Json, now: nat, lower: char -> char): (r: Result<string>)
    ensures r.Ok? ==> r.value != ""
    ensures Truthy(slug) && slug.Str? ==> r == Ok(slug.s)
    ensures Truthy(slug) && !slug.Str? ==> r == Err(NonStringKey)
    ensures !Truthy(slug) && title.Str? && title.s != "" ==> r == Ok(Hyphenate(Lower(lower, title.s)))
    ensures !Truthy(slug) && (Nullish(title) || title == Str("")) ==> r == Ok(TimestampSlug(now))
    ensures !Truthy(slug) && !Nullish(title) && !title.Str? ==> r == Err(NotAFunction)
  {
    if Truthy(slug) then
      if slug.Str? then Ok(slug.s) else Err(NonStringKey)
    else if Nullish(title) then Ok(TimestampSlug(now))
    else if !title.Str? then Err(NotAFunction)
    else
      var derived := Str(Hyphenate(Lower(lower, title.s)));
      if Truthy(derived) then Ok(derived.s) else Ok(TimestampSlug(now))
  }

  /** The record built for `raw`, before its slug is made unique. */
  function Draft(raw: Json, courseId: int, now: nat, lower: char -> char): (r: Result<Topic>)
    ensures Nullish(raw) <==> r == Err(ReadOfNull)
    ensures r.Err? ==> r.cause in {ReadOfNull, NonStringKey, NotAFunction}
    ensures r.Ok? ==> r.value.course == courseId && r.value.slug != ""
    ensures !Nullish(raw) ==>
      (r.Ok? <==> BaseSlug(Prop(raw, "slug"), Prop(raw, "title"), now, lower).Ok?)
    ensures !Nullish(raw) && BaseSlug(Prop(raw, "slug"), Prop(raw, "title"), now, lower).Err? ==>
      r == Err(BaseSlug(Prop(raw, "slug"), Prop(raw, "title"), now, lower).cause)
    ensures !Nullish(raw) && r.Ok? ==>
      r.value.slug == BaseSlug(Prop(raw, "slug"), Prop(raw, "title"), now, lower).value
    ensures !Nullish(raw) && r.Ok? ==>
      var title := Prop(raw, "title");
      var description := Prop(raw, "description");
      var single := Prop(raw, "isSingleTopicCourse");
      && (Truthy(title) ==> r.value.title == title)
      && (!Truthy(title) ==> r.value.title == Str(Untitled))
      && (Truthy(description) ==> r.value.description == description)
      && (!Truthy(description) ==> r.value.description == Str(""))
      && (Nullish(single) ==> r.value.isSingleTopicCourse == Bool(false))
      && (!Nullish(single) ==> r.value.isSingleTopicCourse == single)
  {
    if Nullish(raw) then Err(ReadOfNull)
    else
      var base :- BaseSlug(Prop(raw, "slug"), Prop(raw, "title"), now, lower);
      Ok(Topic(
           title := Or(Prop(raw, "title"), Str(Untitled)),
           slug := base,
           course := courseId,
           description := Or(Prop(raw, "description"), Str("")),
           isSingleTopicCourse := Coalesce(Prop(raw, "isSingleTopicCourse"), Bool(false))))
  }

  /** The draft of every item, item k normalised at clock reading
      `env.clock(k)`. Normalisation is pure, so drafting all items up front and
      reading them in order is the same as drafting each one as the loop
      reaches it: the loop never looks past the first failure. */
  function Drafts(items: seq<Json>, env: Env): (r: seq<Result<Topic>>)
    ensures |r| == |items| && Normalised(r)
    ensures forall k :: 0 <= k < |items| ==> r[k] == Draft(items[k], env.courseId, env.clock(k), env.lower)
  {
    var r := seq(|items|, k requires 0 <= k < |items| => Draft(items[k], env.courseId, env.clock(k), env.lower));
    assert forall k :: 0 <= k < |r| && r[k].Err? ==> r[k].cause != Rejected by {
      forall k | 0 <= k < |r| && r[k].Err?
        ensures r[k].cause != Rejected
      {
        assert r[k] == Draft(items[k], env.courseId, env.clock(k), env.lower);
      }
    }
    r
  }

  /** The slugs of `topics`. */
  function SlugSet(topics: seq<Topic>): (r: set<string>)
    ensures forall j :: 0 <= j < |topics| ==> topics[j].slug in r
  {
    if topics == [] then {} else {topics[0].slug} + SlugSet(topics[1..])
  }

  /** The set holds the slugs of `topics` and nothing else. */
  lemma {:induction false} SlugSetExact(topics: seq<Topic>)
    ensures forall x :: x in SlugSet(topics) <==> exists j :: 0 <= j < |topics| && topics[j].slug == x
  {
    if topics != [] {
      SlugSetExact(topics[1..]);
      forall x | x in SlugSet(topics)
        ensures exists j :: 0 <= j < |topics| && topics[j].slug == x
      {
        if x != topics[0].slug {
          assert x in SlugSet(topics[1..]);
          var j :| 0 <= j < |topics[1..]| && topics[1..][j].slug == x;
          assert topics[j + 1].slug == x;
        }
      }
    }
  }

  /** A drafted topic with its slug made unique against the slugs in `seen`. */
  function Stamp(d: Topic, seen: set<string>): (t: Topic)
    ensures t.slug !in seen
    ensures t == d.(slug := t.slug)
    ensures |t.slug| >= |d.slug|
    ensures d.slug !in seen ==> t == d
  {
    d.(slug := Uniquify(Dashed, seen, d.slug))
  }

  /** The `for (let raw of items)` loop from item i on, when the slugs in
      `seen` have already been emitted. */
  function ImportFrom(drafts: seq<Result<Topic>>, i: nat, seen: set<string>, ok: nat -> bool): (r: Run<Topic>)
    requires i <= |drafts| && Normalised(drafts)
    ensures InOrder(r, i, |drafts| - i, ok)
    decreases |drafts| - i
  {
    if i == |drafts| then Done([])
    else match drafts[i]
      case Err(c) => Aborted([], c)
      case Ok(d) =>
        var topic := Stamp(d, seen);
        if !ok(i) then Aborted([topic], Rejected)
        else
          var rest := ImportFrom(drafts, i + 1, seen + {topic.slug}, ok);
          InOrderPrepend(topic, rest, i, |drafts| - i, ok);
          Prepend(topic, rest)
  }

  /** `addTopics(data, courseId)` */
  function AddTopics(data: Json, env: Env, ok: nat -> bool): (r: Run<Topic>)
    ensures Items(data, false).Err? ==> r == Aborted([], Items(data, false).cause)
    ensures Items(data, false).Ok? ==> InOrder(r, 0, |Items(data, false).value|, ok)
    ensures forall j, k :: 0 <= j < k < |r.sent| ==> r.sent[j].slug != r.sent[k].slug
  {
    match Items(data, false)
    case Err(c) => Aborted([], c)
    case Ok(items) =>
      SlugsUnique(Drafts(items, env), 0, {}, ok);
      ImportFrom(Drafts(items, env), 0, {}, ok)
  }

  /** Every topic sent is bound to the call's course and has a non-empty slug. */
  lemma SentToCourse(data: Json, env: Env, ok: nat -> bool)
    ensures forall j :: 0 <= j < |AddTopics(data, env, ok).sent| ==>
      AddTopics(data, env, ok).sent[j].course == env.courseId && AddTopics(data, env, ok).sent[j].slug != ""
  {
    if Items(data, false).Ok? {
      var items := Items(data, false).value;
      var drafts := Drafts(items, env);
      var sent := ImportFrom(drafts, 0, {}, ok).sent;
      assert AddTopics(data, env, ok).sent == sent;
      ImportFromRecords(drafts, 0, {}, ok);
      forall j | 0 <= j < |sent|
        ensures sent[j].course == env.courseId && sent[j].slug != ""
      {
        assert SentAt(drafts, 0, {}, sent, j);
        assert drafts[j] == Draft(items[j], env.courseId, env.clock(j), env.lower);
      }
    }
  }

  /** `addTopics(data)` without a course id binds every topic it sends to
      course 2. */
  lemma DefaultCourse(data: Json, clock: nat -> nat, lower: char -> char, ok: nat -> bool)
    ensures forall j :: 0 <= j < |AddTopics(data, Env(DefaultCourseId, clock, lower), ok).sent| ==>
      AddTopics(data, Env(DefaultCourseId, clock, lower), ok).sent[j].course == 2
  {
    SentToCourse(data, Env(DefaultCourseId, clock, lower), ok);
  }

  /** The slug of the j-th record sent: the draft's own slug when no earlier
      record of this call carries it, otherwise the variant with the least
      counter n >= 1 that no earlier record of this call carries. */
  lemma {:induction false} KeptOrRenamed(data: Json, env: Env, ok: nat -> bool, j: nat)
    requires j < |AddTopics(data, env, ok).sent|
    ensures Items(data, false).Ok? && j < |Items(data, false).value|
    ensures var sent := AddTopics(data, env, ok).sent;
      var d := Drafts(Items(data, false).value, env)[j];
      && d == Draft(Items(data, false).value[j], env.courseId, env.clock(j), env.lower)
      && d.Ok?
      && sent[j] == d.value.(slug := sent[j].slug)
      && (forall k :: 0 <= k < j ==> sent[k].slug != sent[j].slug)
      && ((forall k :: 0 <= k < j ==> sent[k].slug != d.value.slug) ==> sent[j] == d.value)
      && ((exists k :: 0 <= k < j && sent[k].slug == d.value.slug) ==>
        exists n :: 1 <= n && sent[j].slug == Candidate(Dashed, d.value.slug, n)
          && forall m :: 1 <= m < n ==> exists k :: 0 <= k < j && sent[k].slug == Candidate(Dashed, d.value.slug, m))
  {
    var items := Items(data, false).value;
    var drafts := Drafts(items, env);
    var sent := ImportFrom(drafts, 0, {}, ok).sent;
    assert AddTopics(data, env, ok).sent == sent;
    ImportFromRecords(drafts, 0, {}, ok);
    assert SentAt(drafts, 0, {}, sent, j);
    var d := drafts[j].value;
    var earlier := SlugSet(sent[..j]);
    assert {} + earlier == earlier;
    assert sent[j].slug == Uniquify(Dashed, earlier, d.slug);
    SlugSetExact(sent[..j]);
    assert forall k :: 0 <= k < j ==> sent[..j][k] == sent[k];
    forall x
      ensures x in earlier <==> exists k :: 0 <= k < j && sent[k].slug == x
    {
      if x in earlier {
        var k :| 0 <= k < j && sent[..j][k].slug == x;
        assert sent[k].slug == x;
      }
    }
  }

  /** The j-th record sent is item from + j's draft, stamped against `seen`
      and the slugs sent before it. */
  ghost predicate SentAt(drafts: seq<Result<Topic>>, from: nat, seen: set<string>, sent: seq<Topic>, j: nat)
    requires j < |sent|
  {
    && from + j < |drafts|
    && drafts[from + j].Ok?
    && sent[j] == Stamp(drafts[from + j].value, seen + SlugSet(sent[..j]))
  }

  /** What the loop sends, record by record: the j-th record is the draft of
      item i + j with its slug made unique against `seen` and the slugs sent
      before it. */
  lemma {:induction false} ImportFromRecords(drafts: seq<Result<Topic>>, i: nat, seen: set<string>, ok: nat -> bool)
    requires i <= |drafts| && Normalised(drafts)
    ensures forall j :: 0 <= j < |ImportFrom(drafts, i, seen, ok).sent| ==>
      SentAt(drafts, i, seen, ImportFrom(drafts, i, seen, ok).sent, j)
    decreases |drafts| - i
  {
    if i < |drafts| && drafts[i].Ok? {
      var t := Stamp(drafts[i].value, seen);
      var r := ImportFrom(drafts, i, seen, ok);
      assert SentAt(drafts, i, seen, [t], 0) by {
        assert [t][..0] == [];
      }
      if ok(i) {
        var rest := ImportFrom(drafts, i + 1, seen + {t.slug}, ok);
        assert r.sent == [t] + rest.sent;
        ImportFromRecords(drafts, i + 1, seen + {t.slug}, ok);
        forall j | 0 <= j < |r.sent|
          ensures SentAt(drafts, i, seen, r.sent, j)
        {
          SentAtShift(drafts, i, seen, t, rest.sent, j);
        }
      }
    }
  }

  /** One step of the induction above: the first record sent is item i's,
      and a record sent after it keeps its characterisation once it is put in
      front. */
  lemma SentAtShift(drafts: seq<Result<Topic>>, i: nat, seen: set<string>, topic: Topic, rest: seq<Topic>, j: nat)
    requires j <= |rest|
    requires SentAt(drafts, i, seen, [topic], 0)
    requires 1 <= j ==> SentAt(drafts, i + 1, seen + {topic.slug}, rest, j - 1)
    ensures SentAt(drafts, i, seen, [topic] + rest, j)
  {
    var sent := [topic] + rest;
    if j == 0 {
      assert sent[..0] == [topic][..0];
    } else {
      var k := j - 1;
      assert sent[j] == rest[k];
      assert sent[..j] == [topic] + rest[..k];
      assert ([topic] + rest[..k])[1..] == rest[..k];
      assert seen + SlugSet(sent[..j]) == seen + {topic.slug} + SlugSet(rest[..k]);
      assert (i + 1) + k == i + j;
    }
  }

  /** Every slug sent is fresh against `seen` and against every other slug
      sent. */
  lemma SlugsUnique(drafts: seq<Result<Topic>>, i: nat, seen: set<string>, ok: nat -> bool)
    requires i <= |drafts| && Normalised(drafts)
    ensures forall j :: 0 <= j < |ImportFrom(drafts, i, seen, ok).sent| ==>
      ImportFrom(drafts, i, seen, ok).sent[j].slug !in seen
    ensures forall j, k :: 0 <= j < k < |ImportFrom(drafts, i, seen, ok).sent| ==>
      ImportFrom(drafts, i, seen, ok).sent[j].slug != ImportFrom(drafts, i, seen, ok).sent[k].slug
  {
    var sent := ImportFrom(drafts, i, seen, ok).sent;
    ImportFromRecords(drafts, i, seen, ok);
    forall j | 0 <= j < |sent|
      ensures sent[j].slug !in seen
    {
      assert SentAt(drafts, i, seen, sent, j);
    }
    forall j, k | 0 <= j < k < |sent|
      ensures sent[j].slug != sent[k].slug
    {
      assert SentAt(drafts, i, seen, sent, k);
      assert sent[..k][j] == sent[j];
    }
  }

  /** A run that stops for any reason but a rejected POST stops at the item
      whose normalisation threw, with that item's error. */
  lemma {:induction false} ImportFromHalts(drafts: seq<Result<Topic>>, i: nat, seen: set<string>, ok: nat -> bool)
    requires i <= |drafts| && Normalised(drafts)
    ensures Halted(drafts, i, ImportFrom(drafts, i, seen, ok))
    decreases |drafts| - i
  {
    var r := ImportFrom(drafts, i, seen, ok);
    if i < |drafts| {
      match drafts[i]
      case Err(c) =>
        assert r == Aborted([], c);
      case Ok(d) =>
        var t := Stamp(d, seen);
        if ok(i) {
          var rest := ImportFrom(drafts, i + 1, seen + {t.slug}, ok);
          assert r == Prepend(t, rest);
          ImportFromHalts(drafts, i + 1, seen + {t.slug}, ok);
          assert i + |r.sent| == (i + 1) + |rest.sent|;
        } else {
          assert r == Aborted([t], Rejected);
        }
    } else {
      assert r == Done([]);
    }
  }

  /** The server's answers never change what is sent, only where sending
      stops: against a server that accepts every POST another one accepts,
      the run sends an extension of what it sends against the other. */
  lemma {:induction false} AnswersOnlyTruncate(drafts: seq<Result<Topic>>, i: nat, seen: set<string>, ok: nat -> bool, ok': nat -> bool)
    requires i <= |drafts| && Normalised(drafts)
    requires forall k :: ok(k) ==> ok'(k)
    ensures ImportFrom(drafts, i, seen, ok).sent <= ImportFrom(drafts, i, seen, ok').sent
    decreases |drafts| - i
  {
    if i < |drafts| {
      match drafts[i]
      case Err(c) =>
        assert ImportFrom(drafts, i, seen, ok).sent == [];
      case Ok(d) =>
        var t := Stamp(d, seen);
        var seen' := seen + {t.slug};
        var full := ImportFrom(drafts, i + 1, seen', ok').sent;
        if ok(i) {
          var rest := ImportFrom(drafts, i + 1, seen', ok).sent;
          assert ImportFrom(drafts, i, seen, ok).sent == [t] + rest;
          assert ImportFrom(drafts, i, seen, ok').sent == [t] + full;
          AnswersOnlyTruncate(drafts, i + 1, seen', ok, ok');
          PrefixCons(t, rest, full);
        } else {
          assert ImportFrom(drafts, i, seen, ok).sent == [t];
          assert ImportFrom(drafts, i, seen, ok').sent[..1] == [t];
        }
    }
  }
}

=== FILE: unique.dfy ===
/** Per-batch de-duplication of a key (a topic's slug, a step's title):
    a key not yet emitted in the batch is kept, otherwise the first numbered
    variant of it that is still free is used instead. */
module Unique {
  import opened Text

  /** How the k-th variant of a key is spelled: `${base}-${k}` for topic
      slugs, `${base} (${k})` for step titles. */
  datatype Style = Dashed | Parenthesised

  function Candidate(style: Style, base: string, k: nat): (r: string)
    ensures |r| > |base| && r[..|base|] == base
    ensures r != base
  {
    match style
    case Dashed => base + "-" + NatText(k)
    case Parenthesised => base + " (" + NatText(k) + ")"
  }

  /** Different numbers give different variants of the same key. */
  lemma CandidateInjective(style: Style, base: string, j: nat, k: nat)
    requires Candidate(style, base, j) == Candidate(style, base, k)
    ensures j == k
  {
    var cj, ck := Candidate(style, base, j), Candidate(style, base, k);
    match style
    case Dashed =>
      assert cj[|base| + 1..] == NatText(j);
      assert ck[|base| + 1..] == NatText(k);
      NatTextInjective(j, k);
    case Parenthesised =>
      assert cj[|base| + 2..|cj| - 1] == NatText(j);
      assert ck[|base| + 2..|ck| - 1] == NatText(k);
      NatTextInjective(j, k);
  }

  /** The variants numbered 1 to n. */
  ghost function Candidates(style: Style, base: string, n: nat): set<string> {
    set k | 1 <= k <= n :: Candidate(style, base, k)
  }

  lemma {:induction false} CandidatesSize(style: Style, base: string, n: nat)
    ensures |Candidates(style, base, n)| == n
  {
    if n == 0 {
      assert Candidates(style, base, 0) == {};
    } else {
      CandidatesSize(style, base, n - 1);
      CandidatesGrow(style, base, n);
    }
  }

  /** The n-th variant is new among the first n. */
  lemma CandidatesGrow(style: Style, base: string, n: nat)
    requires n >= 1
    ensures Candidates(style, base, n) == Candidates(style, base, n - 1) + {Candidate(style, base, n)}
    ensures Candidate(style, base, n) !in Candidates(style, base, n - 1)
  {
    var last := Candidate(style, base, n);
    if last in Candidates(style, base, n - 1) {
      var k :| 1 <= k <= n - 1 && Candidate(style, base, k) == last;
      CandidateInjective(style, base, k, n);
    }
  }

  /** Why the search loop ends: among the variants numbered 1 to |seen| + 1
      at least one has not been emitted yet. */
  lemma SomeCandidateFree(style: Style, base: string, seen: set<string>)
    ensures exists k :: 1 <= k <= |seen| + 1 && Candidate(style, base, k) !in seen
  {
    var n := |seen| + 1;
    var c := Candidates(style, base, n);
    CandidatesSize(style, base, n);
    if c <= seen {
      SubsetSize(c, seen);
      assert false;
    }
    var x :| x in c && x !in seen;
    var k :| 1 <= k <= n && Candidate(style, base, k) == x;
  }

  lemma {:induction false} SubsetSize(a: set<string>, b: set<string>)
    requires a <= b
    ensures |a| <= |b|
  {
    if a != {} {
      var x :| x in a;
      SubsetSize(a - {x}, b - {x});
    }
  }

  /** The smallest number r >= k whose variant is free, given that one at most |seen| + 1 is. */
  function FirstFree(style: Style, base: string, seen: set<string>, k: nat): (r: nat)
    requires 1 <= k
    requires exists j :: k <= j <= |seen| + 1 && Candidate(style, base, j) !in seen
    ensures k <= r <= |seen| + 1
    ensures Candidate(style, base, r) !in seen
    ensures forall j :: k <= j < r ==> Candidate(style, base, j) in seen
    decreases |seen| + 1 - k
  {
    if Candidate(style, base, k) !in seen then k
    else FirstFree(style, base, seen, k + 1)
  }

  /** The key emitted for `base` when the keys in `seen` have already been
      emitted in this batch. */
  function Uniquify(style: Style, seen: set<string>, base: string): (r: string)
    ensures r !in seen
    ensures |r| >= |base|
    ensures base !in seen ==> r == base
    ensures base in seen ==>
      exists k :: 1 <= k <= |seen| + 1 && r == Candidate(style, base, k)
        && forall j :: 1 <= j < k ==> Candidate(style, base, j) in seen
  {
    if base !in seen then base
    else
      SomeCandidateFree(style, base, seen);
      Candidate(style, base, FirstFree(style, base, seen, 1))
  }

  /** At most one number is both free and preceded only by taken variants. */
  lemma FirstFreeIsUnique(style: Style, base: string, seen: set<string>, k: nat, k': nat)
    requires Candidate(style, base, k) !in seen && Candidate(style, base, k') !in seen
    requires forall j :: 1 <= j < k ==> Candidate(style, base, j) in seen
    requires forall j :: 1 <= j < k' ==> Candidate(style, base, j) in seen
    requires 1 <= k && 1 <= k'
    ensures k == k'
  {
  }

  /** The `while (seen.has(unique))` loop, step for step. */
  method UniquifyLoop(style: Style, seen: set<string>, base: string) returns (unique: string)
    ensures unique !in seen
    ensures base !in seen ==> unique == base
    ensures base in seen ==>
      exists k :: 1 <= k <= |seen| + 1 && unique == Candidate(style, base, k)
        && forall j :: 1 <= j < k ==> Candidate(style, base, j) in seen
    ensures unique == Uniquify(style, seen, base)
  {
    unique := base;
    var counter: nat := 1;
    if base in seen {
      SomeCandidateFree(style, base, seen);
    }
    while unique in seen
      invariant 1 <= counter
      invariant unique == if counter == 1 then base else Candidate(style, base, counter - 1)
      invariant counter > 1 ==> base in seen
      invariant forall j :: 1 <= j < counter - 1 ==> Candidate(style, base, j) in seen
      invariant base in seen ==>
        exists j :: counter - 1 <= j <= |seen| + 1 && 1 <= j && Candidate(style, base, j) !in seen
      decreases |seen| + 2 - counter
    {
      unique := Candidate(style, base, counter);
      counter := counter + 1;
    }
    if base in seen {
      assert counter > 1;
      assert unique == Candidate(style, base, counter - 1);
      var r := Uniquify(style, seen, base);
      var k :| 1 <= k <= |seen| + 1 && r == Candidate(style, base, k)
        && forall j :: 1 <= j < k ==> Candidate(style, base, j) in seen;
      FirstFreeIsUnique(style, base, seen, k, counter - 1);
    }
  }
}
